=== FILE: README.md ===
# Reaching definitions of static fields — a Dafny model

This project models the set-up of an intraprocedural reaching-definitions
analysis over a procedure's control-flow graph (CFG), as written in
`ReachingDefsAnalysis.java`. A *fact* is one static-field write
(`putstatic`) instruction; a bit vector is a set of fact numbers.

- **Numbering** (`Numbering.NumberPutStatics`): one left-to-right pass over the
  instruction array gives every static write the next dense fact number and
  records its instruction index in the ordinal table (`putInstrs`). The same
  pass builds the kill table, which maps each resolved field to the fact
  numbers of all writes to it. Instance writes and all other instructions
  get no number.
- **Ordinal mapping** (`OrdinalMapping.MappedIndex`): the reverse lookup from
  an instruction index to its fact number, or -1.
- **Node transfer functions** (`Transfer.NodeTransferFunction`): a node whose
  FIRST instruction is a static write to field F with fact i gets kill/gen,
  with kill = every write to F and gen = {i}. It computes
  OUT = (IN \ kill) ∪ gen. Every other node is the identity.
- **Framework** (`Framework`): the meet operator is union. There are node
  transfer functions and no edge transfer functions. A solution of the solver
  is captured as the fixpoint equations IN(n) = ⋃ OUT(preds n) and
  OUT(n) = f_n(IN(n)). One round of the update rule is also modelled, and
  rounds started from empty vectors never shrink any OUT.

The class-hierarchy resolver is a parameter `resolve: FieldRef -> Field`.
It is a total function, which stands for the non-null assertion on the
resolved field. Instructions, blocks and the CFG are immutable datatypes; a
node is a `Block` holding its instructions in program order, and the CFG
lists every node's predecessors.

The code is followed where a design reading would differ. The loop in
`getNodeTransferFunction` returns on the first instruction of the node, so a
static write that is not the node's first instruction is ignored. The model
does the same, and `Transfer.OnlyFirstInstructionExamined` states it.

## Model

| member | source | states |
|---|---|---|
| `Numbering.NumberPutStatics` | ReachingDefsAnalysis.java:49-74 | the pass yields the numbering of the array: fact k records the instruction index of the k-th static write, the kill table has an entry exactly for the fields some static write resolves to, and each entry holds exactly the fact numbers of the writes to that field |
| `Numbering.StaticPuts` | ReachingDefsAnalysis.java:53-58 | every instruction selected for numbering is a static write (instance writes and other instructions never are), and there are at most as many as instructions |
| `Numbering.StaticPutsAreTheArrayWrites` | ReachingDefsAnalysis.java:53-58 | the numbered instructions are exactly the static writes of the array: each is an instruction of the array, and every static write of the array is among them |
| `Numbering.FactIndexOfPut` | ReachingDefsAnalysis.java:59-60 | the static write at array position j is fact number "static writes before j", and later static writes get strictly larger fact numbers (array order) |
| `Numbering.EveryFactHasPosition` | ReachingDefsAnalysis.java:59-60 | every fact number below the count belongs to some static write of the array, so the numbers are dense |
| `Numbering.NumberingIsDense` | ReachingDefsAnalysis.java:51-60 | the fact count N equals the number of static writes, each static write's number is below N and maps to its own instruction index, and every number below N is used |
| `Numbering.OrdinalsAreBijective` | ReachingDefsAnalysis.java:59-72 | with distinct instruction indices, the ordinal table has no repeats, each fact number looks up to itself, each static write looks up to its own fact number, and every other instruction looks up to -1 |
| `Numbering.KillTablePartitionsFacts` | ReachingDefsAnalysis.java:61-69 | every fact is in the kill entry of its own field, an entry holds only facts below N written to that field, and entries of distinct fields are disjoint |
| `Numbering.KillEntryOfPut` | ReachingDefsAnalysis.java:63-69 | a static write from the array has a kill entry for its field, and its own fact number is in that entry |
| `Numbering.NumberingIsUnique` | ReachingDefsAnalysis.java:49-74 | two tables that both satisfy the numbering's description for the same array and resolution are equal, so the description fixes the pass's output |
| `OrdinalMapping.MappedIndex` | ReachingDefsAnalysis.java:72 | the lookup answers -1 exactly when the index is absent, and otherwise a position holding that index, with no later position holding it |
| `OrdinalMapping.MappedIndexInverse` | ReachingDefsAnalysis.java:72 | over a table without repeats, the lookup is the inverse of indexing: position k looks up to k, and any position found holds the index looked up |
| `Transfer.Apply` | ReachingDefsAnalysis.java:87-100 | identity gives OUT = IN; kill/gen gives OUT = (IN minus kill) plus gen: generated facts always reach OUT, unkilled IN facts pass through, a killed fact survives only if regenerated, and nothing outside IN and gen appears |
| `Transfer.NodeTransferFunction` | ReachingDefsAnalysis.java:79-101 | a node with no instructions, or whose first instruction is not a static write, gets the identity; a kill/gen result only comes from a node starting with a static write and has exactly one gen fact |
| `Transfer.KillGenOfNumberedPut` | ReachingDefsAnalysis.java:84-94 | a node starting with a static write from the array (distinct indices) gets kill = every fact writing its resolved field and gen = its own fact number, and gen is contained in kill |
| `Transfer.KillGenEffect` | ReachingDefsAnalysis.java:87-94 | with distinct instruction indices, for any IN such a node's OUT holds its own fact, holds no other write to the same field, and holds every fact not writing that field exactly when IN does |
| `Transfer.OnlyFirstInstructionExamined` | ReachingDefsAnalysis.java:81-100 | a node's transfer function equals that of the node cut down to its first instruction: later instructions are never examined |
| `Transfer.TransferMonotone` | ReachingDefsAnalysis.java:87-98 | both kinds of transfer function are monotone: a larger IN never gives a smaller OUT |
| `Framework.Meet` | ReachingDefsAnalysis.java:103-107 | a fact is in the meet exactly when it is in one of the incoming values |
| `Framework.MeetOfTwo` | ReachingDefsAnalysis.java:103-107 | two incoming values such as {a} and {b} meet to their union |
| `Framework.FrameworkShape` | ReachingDefsAnalysis.java:109-126 | the framework has node transfer functions, has no edge transfer functions, and asking for an edge transfer function fails |
| `Framework.EdgeTransferFunction` | ReachingDefsAnalysis.java:121-126 | asking for an edge transfer function always fails |
| `Framework.NodeTransfers` | ReachingDefsAnalysis.java:131-133 | building every node's transfer function succeeds exactly when each node's does; on success there is one per node, equal to that node's; on failure the error is that of some node |
| `Framework.FixpointIffStable` | ReachingDefsAnalysis.java:131-133 | a solution satisfies the fixpoint equations exactly when one more round of the update rule leaves it unchanged |
| `Framework.MeetMonotone` | ReachingDefsAnalysis.java:103-107 | the meet is monotone: pointwise larger incoming values give a larger union |
| `Framework.RoundMonotone` | ReachingDefsAnalysis.java:131-133 | one round of the update rule is monotone: pointwise larger OUTs going in give pointwise larger INs and OUTs |
| `Framework.IterationIncreases` | ReachingDefsAnalysis.java:131-133 | if one round of the update rule does not shrink any OUT, then no later round does: each round's OUTs are contained in the next round's |
| `Framework.IterationFromBottomIncreases` | ReachingDefsAnalysis.java:131-133 | starting from all-empty bit vectors, no node's OUT shrinks from one round of the update rule to the next |
| `Framework.TransfersAreDefined` | ReachingDefsAnalysis.java:89-94 | when every static write that starts a block comes from the numbered array, every node's transfer function is built: the fact number and the kill entry are always found; blocks starting with anything else, such as a phi outside the array, are unconstrained |
| `Framework.SolutionMeet` | ReachingDefsAnalysis.java:103-107 | at any fixpoint of the equations, every predecessor's OUT is inside IN(n), every fact of IN(n) comes from some predecessor, and a node without predecessors has an empty IN |
| `Framework.SolutionKillGen` | ReachingDefsAnalysis.java:84-94 | at a solution with distinct instruction indices, a node starting with an array write to F has its own fact in OUT, no other write to F in OUT, and other facts in OUT exactly when in IN |
| `Framework.SolutionIdentity` | ReachingDefsAnalysis.java:95-100 | at a solution, a node not starting with a static write has OUT equal to IN |
| `Framework.DiamondScenario` | DataFlowTest.java:105-111 | on a hand-built diamond (entry, a write to X, then a write to X and a write to Y on two branches, then a join), the stated tables and IN/OUT values solve the analysis, and OUT of block 4 has three facts including fact 2 |

## Left out

- The solver itself (the worklist engine behind `BitVectorSolver` and `BitVectorFramework`, lines 131-133) is WALA library code outside this model. Its result is modelled as the fixpoint equations (`Framework.IsFixpoint`). The model adds one update round that recomputes every node at once (`Framework.Round`) and its iteration from empty vectors. The worklist order, termination, order-independence and leastness of the solution are not stated.
- Class-hierarchy field resolution is an external call. It is the parameter `resolve`, assumed total. With Java assertions disabled, the source would also accept a null field as a map key; that case is not modelled.
- `ObjectArrayMapping.getMappedIndex` is WALA library code outside this model. `OrdinalMapping.MappedIndex` answers -1 for a missing index and the last position for a repeated one. The properties that identify a fact by its index (`Numbering.OrdinalsAreBijective`, `Transfer.KillGenOfNumberedPut`, `Transfer.KillGenEffect`, `Framework.SolutionKillGen`) are stated only for distinct instruction indices: with a repeated index the lookup answers the last write's fact number, so an earlier write carrying the same index generates that later fact, not its own; that every node gets a transfer function (`Framework.TransfersAreDefined`) holds without it.
- `BitVectorKillGen` is modelled by its stated meaning, OUT = (IN \ kill) ∪ gen (`Transfer.Apply`). A missing fact number (the source would set bit -1) and a missing kill entry (a null kill vector) become the errors `UnmappedInstruction` and `NoKillEntry`. Neither can happen when every static write that starts a block comes from the numbered array (`Framework.TransfersAreDefined`); other blocks, whatever they hold, get the identity.
- IR and CFG construction, SSA, and how instructions are grouped into blocks are external. The CFG is given as data.
- The debug printing in `analyze` (lines 135-146) is output only.
- Cancellation: `solve(null)` passes no monitor, so a cancelled solve cannot occur here.
- Bit-vector indices are Java `int`s. The model uses unbounded naturals; more than 2^31 static writes in one procedure is not considered.
- `DataFlowTest.java` loads bytecode and a class hierarchy. Its input method is not part of this model. `Framework.DiamondScenario` is a hand-built CFG with the outcome the test asserts, not the test's own input.

=== FILE: framework.dfy ===
/**
 The data-flow framework the analysis is wired into: union as the meet
 operator, node transfer functions only (no edge transfer functions), and the
 equations a solution of the solver satisfies on the control-flow graph.
 */
module Framework {
  import opened Ir
  import opened Wrappers
  import opened OrdinalMapping
  import opened Numbering
  import opened Transfer

  /** The meet operator: the union of all incoming values (empty for no input). */
  function Meet(values: seq<set<nat>>): (r: set<nat>)
    ensures forall k :: k in r <==> exists i :: 0 <= i < |values| && k in values[i]
  {
    if |values| == 0 then {}
    else Meet(values[..|values| - 1]) + values[|values| - 1]
  }

  /** The framework uses node transfer functions. */
  const HasNodeTransferFunctions: bool := true

  /** The framework has no edge transfer functions. */
  const HasEdgeTransferFunctions: bool := false

  /** Asking for an edge transfer function is always an error. */
  function EdgeTransferFunction(src: Block, dst: Block): (r: Result<TransferFunction, TransferError>)
    ensures r.Failure?
  {
    Failure(EdgeTransferUnsupported)
  }

  /** A single incoming value meets to itself. */
  lemma MeetOfOne(a: set<nat>)
    ensures Meet([a]) == a
  {
  }

  /** Two incoming values meet to their union, e.g. {a} and {b} to {a, b}. */
  lemma MeetOfTwo(a: set<nat>, b: set<nat>)
    ensures Meet([a, b]) == a + b
  {
  }

  /**
   The shape of the framework: node transfer functions are present, edge
   transfer functions are not, and asking for one fails.
   */
  lemma FrameworkShape(src: Block, dst: Block)
    ensures HasNodeTransferFunctions && !HasEdgeTransferFunctions
    ensures EdgeTransferFunction(src, dst) == Failure(EdgeTransferUnsupported)
  {
  }

  /**
   The transfer functions of all nodes, in node order, or the error of the
   first node whose transfer function cannot be built.
   */
  function NodeTransfers(blocks: seq<Block>, num: Numbering, resolve: FieldRef -> Field): (r: Result<seq<TransferFunction>, TransferError>)
    ensures r.Success? <==> forall n :: 0 <= n < |blocks| ==> NodeTransferFunction(blocks[n], num, resolve).Success?
    ensures r.Success? ==> (&& |r.value| == |blocks|
                            && forall n :: 0 <= n < |blocks| ==> r.value[n] == NodeTransferFunction(blocks[n], num, resolve).value)
    ensures r.Failure? ==> exists n :: 0 <= n < |blocks| && NodeTransferFunction(blocks[n], num, resolve) == Failure(r.error)
  {
    if |blocks| == 0 then Success([])
    else
      match NodeTransfers(blocks[..|blocks| - 1], num, resolve)
      case Failure(e) => Failure(e)
      case Success(fns) =>
        match NodeTransferFunction(blocks[|blocks| - 1], num, resolve)
        case Failure(e) => Failure(e)
        case Success(t) => Success(fns + [t])
  }

  /** The IN and OUT bit vectors of every node, indexed by node number. */
  datatype Solution = Solution(ins: seq<set<nat>>, outs: seq<set<nat>>)

  /** The OUT values of the predecessors of node `n`, in predecessor order. */
  function PredOuts(cfg: Cfg, outs: seq<set<nat>>, n: nat): seq<set<nat>>
    requires WellFormed(cfg) && |outs| == |cfg.blocks| && n < |cfg.blocks|
  {
    seq(|cfg.preds[n]|, i requires 0 <= i < |cfg.preds[n]| => outs[cfg.preds[n][i]])
  }

  /** `sol` has one IN and one OUT per node. */
  predicate Shaped(cfg: Cfg, sol: Solution)
  {
    WellFormed(cfg) && |sol.ins| == |cfg.blocks| && |sol.outs| == |cfg.blocks|
  }

  /**
   `sol` is a fixpoint of the equations: IN(n) is the meet of the OUTs of
   n's predecessors, and OUT(n) is n's transfer function applied to IN(n).
   */
  predicate IsFixpoint(cfg: Cfg, fns: seq<TransferFunction>, sol: Solution)
  {
    && Shaped(cfg, sol)
    && |fns| == |cfg.blocks|
    && forall n :: 0 <= n < |cfg.blocks| ==>
         && sol.ins[n] == Meet(PredOuts(cfg, sol.outs, n))
         && sol.outs[n] == Apply(fns[n], sol.ins[n])
  }

  /**
   One round of the update rule on every node at once: recompute each IN
   from the current OUTs, then each OUT from the new IN.
   */
  function Round(cfg: Cfg, fns: seq<TransferFunction>, outs: seq<set<nat>>): (r: Solution)
    requires WellFormed(cfg) && |fns| == |cfg.blocks| && |outs| == |cfg.blocks|
    ensures Shaped(cfg, r)
  {
    var ins := seq(|cfg.blocks|, n requires 0 <= n < |cfg.blocks| => Meet(PredOuts(cfg, outs, n)));
    Solution(ins, seq(|cfg.blocks|, n requires 0 <= n < |cfg.blocks| => Apply(fns[n], ins[n])))
  }

  /**
   A fixpoint is exactly a solution that one more round of the update rule
   leaves unchanged.
   */
  lemma FixpointIffStable(cfg: Cfg, fns: seq<TransferFunction>, sol: Solution)
    requires Shaped(cfg, sol) && |fns| == |cfg.blocks|
    ensures IsFixpoint(cfg, fns, sol) <==> Round(cfg, fns, sol.outs) == sol
  {
  }

  /** Every value of `a` is contained in the value of `b` at the same node. */
  predicate PointwiseSubset(a: seq<set<nat>>, b: seq<set<nat>>)
  {
    |a| == |b| && forall n :: 0 <= n < |a| ==> a[n] <= b[n]
  }

  /** The meet is monotone: larger incoming values give a larger meet. */
  lemma MeetMonotone(a: seq<set<nat>>, b: seq<set<nat>>)
    requires PointwiseSubset(a, b)
    ensures Meet(a) <= Meet(b)
  {
  }

  /**
   One round of the update rule is monotone: larger OUTs going in give
   larger INs and OUTs coming out.
   */
  lemma RoundMonotone(cfg: Cfg, fns: seq<TransferFunction>, a: seq<set<nat>>, b: seq<set<nat>>)
    requires WellFormed(cfg) && |fns| == |cfg.blocks| && |a| == |cfg.blocks|
    requires PointwiseSubset(a, b)
    ensures PointwiseSubset(Round(cfg, fns, a).ins, Round(cfg, fns, b).ins)
    ensures PointwiseSubset(Round(cfg, fns, a).outs, Round(cfg, fns, b).outs)
  {
    var ra := Round(cfg, fns, a);
    var rb := Round(cfg, fns, b);
    forall n | 0 <= n < |cfg.blocks|
      ensures ra.ins[n] <= rb.ins[n] && ra.outs[n] <= rb.outs[n]
    {
      MeetMonotone(PredOuts(cfg, a, n), PredOuts(cfg, b, n));
      TransferMonotone(fns[n], ra.ins[n], rb.ins[n]);
    }
  }

  /** All-empty bit vectors, one per node: where the iteration starts. */
  function Bottom(cfg: Cfg): (outs: seq<set<nat>>)
    ensures |outs| == |cfg.blocks| && forall n :: 0 <= n < |outs| ==> outs[n] == {}
  {
    seq(|cfg.blocks|, n => {})
  }

  /** The OUTs after `k` further rounds of the update rule, starting from `outs`. */
  function Iterate(cfg: Cfg, fns: seq<TransferFunction>, outs: seq<set<nat>>, k: nat): (r: seq<set<nat>>)
    requires WellFormed(cfg) && |fns| == |cfg.blocks| && |outs| == |cfg.blocks|
    ensures |r| == |cfg.blocks|
    decreases k
  {
    if k == 0 then outs else Iterate(cfg, fns, Round(cfg, fns, outs).outs, k - 1)
  }

  /**
   If the first round does not shrink any OUT, no later round does either:
   each round's OUTs are contained in the next round's.
   */
  lemma {:induction false} IterationIncreases(cfg: Cfg, fns: seq<TransferFunction>, outs: seq<set<nat>>, k: nat)
    requires WellFormed(cfg) && |fns| == |cfg.blocks| && |outs| == |cfg.blocks|
    requires PointwiseSubset(outs, Round(cfg, fns, outs).outs)
    ensures PointwiseSubset(Iterate(cfg, fns, outs, k), Iterate(cfg, fns, outs, k + 1))
    decreases k
  {
    var next := Round(cfg, fns, outs).outs;
    assert Iterate(cfg, fns, outs, k + 1) == Iterate(cfg, fns, next, k);
    if k > 0 {
      RoundMonotone(cfg, fns, outs, next);
      IterationIncreases(cfg, fns, next, k - 1);
      assert Iterate(cfg, fns, outs, k) == Iterate(cfg, fns, next, k - 1);
    }
  }

  /** Starting from all-empty, no OUT ever shrinks from one round to the next. */
  lemma IterationFromBottomIncreases(cfg: Cfg, fns: seq<TransferFunction>, k: nat)
    requires WellFormed(cfg) && |fns| == |cfg.blocks|
    ensures PointwiseSubset(Iterate(cfg, fns, Bottom(cfg), k), Iterate(cfg, fns, Bottom(cfg), k + 1))
  {
    IterationIncreases(cfg, fns, Bottom(cfg), k);
  }

  /**
   `sol` is what solving the analysis of `cfg` yields: `num` is the numbering
   of the procedure's instructions, every node has a transfer function, and
   `sol` is a fixpoint of the equations they define.
   */
  predicate Solves(cfg: Cfg, resolve: FieldRef -> Field, num: Numbering, sol: Solution)
  {
    && IsNumberingOf(cfg.instructions, resolve, num)
    && NodeTransfers(cfg.blocks, num, resolve).Success?
    && IsFixpoint(cfg, NodeTransfers(cfg.blocks, num, resolve).value, sol)
  }

  /**
   Every block that starts with a static write starts with a write from the
   procedure's instruction array. Blocks starting with anything else (a phi,
   say, which lives outside the array) are unconstrained.
   */
  predicate LeadingPutsFromArray(cfg: Cfg)
  {
    forall n :: 0 <= n < |cfg.blocks| && StartsWithStaticPut(cfg.blocks[n]) ==>
      cfg.blocks[n].instructions[0] in cfg.instructions
  }

  /**
   When the static writes that start blocks come from the array the numbering
   was built from, every node gets a transfer function: the kill-table entry
   and a fact number are always found, repeated instruction indices
   included. Blocks not starting with a static write get the identity
   whatever their instructions are.
   */
  lemma TransfersAreDefined(cfg: Cfg, resolve: FieldRef -> Field, num: Numbering)
    requires IsNumberingOf(cfg.instructions, resolve, num)
    requires LeadingPutsFromArray(cfg)
    ensures NodeTransfers(cfg.blocks, num, resolve).Success?
  {
    forall n | 0 <= n < |cfg.blocks|
      ensures NodeTransferFunction(cfg.blocks[n], num, resolve).Success?
    {
      var node := cfg.blocks[n];
      if StartsWithStaticPut(node) {
        var j :| 0 <= j < |cfg.instructions| && cfg.instructions[j] == node.instructions[0];
        NumberingIsDense(cfg.instructions, resolve, num);
        KillEntryOfPut(cfg.instructions, resolve, num, j);
      }
    }
  }

  /**
   At a solution, IN(n) is the union of the predecessors' OUTs: each
   predecessor's OUT is contained in it, each of its facts comes from some
   predecessor, and a node without predecessors has an empty IN.
   */
  lemma SolutionMeet(cfg: Cfg, fns: seq<TransferFunction>, sol: Solution, n: nat)
    requires IsFixpoint(cfg, fns, sol) && n < |cfg.blocks|
    ensures forall i :: 0 <= i < |cfg.preds[n]| ==> sol.outs[cfg.preds[n][i]] <= sol.ins[n]
    ensures forall k :: k in sol.ins[n] ==> exists i :: 0 <= i < |cfg.preds[n]| && k in sol.outs[cfg.preds[n][i]]
    ensures |cfg.preds[n]| == 0 ==> sol.ins[n] == {}
  {
    var vals := PredOuts(cfg, sol.outs, n);
    forall i | 0 <= i < |cfg.preds[n]|
      ensures sol.outs[cfg.preds[n][i]] <= sol.ins[n]
    {
      assert vals[i] == sol.outs[cfg.preds[n][i]];
    }
    forall k | k in sol.ins[n]
      ensures exists i :: 0 <= i < |cfg.preds[n]| && k in sol.outs[cfg.preds[n][i]]
    {
      var i :| 0 <= i < |vals| && k in vals[i];
      assert k in sol.outs[cfg.preds[n][i]];
    }
  }

  /**
   At a solution with distinct instruction indices, a node starting with a
   static write to field F (the write at array position j) has its own fact
   in OUT, no other write to F in OUT, and every fact that does not write F
   in OUT exactly when in IN.
   */
  lemma SolutionKillGen(cfg: Cfg, resolve: FieldRef -> Field, num: Numbering, sol: Solution, n: nat, j: nat)
    requires Solves(cfg, resolve, num, sol) && DistinctIndices(cfg.instructions) && n < |cfg.blocks|
    requires j < |cfg.instructions| && cfg.instructions[j].PutStatic?
    requires |cfg.blocks[n].instructions| > 0 && cfg.blocks[n].instructions[0] == cfg.instructions[j]
    ensures var f := resolve(cfg.instructions[j].declaredField);
            && FactIndex(cfg.instructions, j) in sol.outs[n]
            && (forall k :: k in sol.outs[n] && k < FactCount(num) && FieldOfFact(cfg.instructions, resolve, k) == f
                  ==> k == FactIndex(cfg.instructions, j))
            && (forall k :: k !in DefsOf(cfg.instructions, resolve, f) ==> (k in sol.outs[n] <==> k in sol.ins[n]))
  {
    KillGenEffect(cfg.instructions, resolve, num, cfg.blocks[n], j, sol.ins[n]);
  }

  /** At a solution, a node that does not start with a static write has OUT equal to IN. */
  lemma SolutionIdentity(cfg: Cfg, resolve: FieldRef -> Field, num: Numbering, sol: Solution, n: nat)
    requires Solves(cfg, resolve, num, sol) && n < |cfg.blocks|
    requires !StartsWithStaticPut(cfg.blocks[n])
    ensures sol.outs[n] == sol.ins[n]
  {
  }

  /**
   A diamond: node 0 is the entry, node 1 writes field X (fact 0), nodes 2
   and 3 follow it and write X (fact 1) and Y (fact 2), and node 4 joins them.
   */
  const DiamondX: FieldRef := FieldRef("Dataflow", "x")
  const DiamondY: FieldRef := FieldRef("Dataflow", "y")
  const DiamondInstrs: seq<Instruction> := [PutStatic(0, DiamondX), PutStatic(1, DiamondX), PutStatic(2, DiamondY), Other(3)]
  const DiamondCfg: Cfg :=
    Cfg(DiamondInstrs,
        [Block(0, []), Block(1, [DiamondInstrs[0]]), Block(2, [DiamondInstrs[1]]), Block(3, [DiamondInstrs[2]]), Block(4, [DiamondInstrs[3]])],
        [[], [0], [1], [1], [2, 3]])

  /** Resolution that maps a reference to the field of the same class and name. */
  function DiamondResolve(r: FieldRef): Field
  {
    Field(r.declaringClass, r.name)
  }

  const DiamondNumbering: Numbering :=
    Numbering([0, 1, 2], map[DiamondResolve(DiamondX) := {0, 1}, DiamondResolve(DiamondY) := {2}])
  const DiamondTransfers: seq<TransferFunction> :=
    [Identity, KillGen({0, 1}, {0}), KillGen({0, 1}, {1}), KillGen({2}, {2}), Identity]
  const DiamondSolution: Solution :=
    Solution([{}, {}, {0}, {0}, {0, 1, 2}], [{}, {0}, {1}, {0, 2}, {0, 1, 2}])

  /** The diamond's static writes are its first three instructions. */
  lemma DiamondStaticPuts()
    ensures StaticPuts(DiamondInstrs) == DiamondInstrs[..3]
  {
    var instrs := DiamondInstrs;
    assert StaticPuts(instrs[..0]) == [];
    assert instrs[..1] == instrs[..0] + [instrs[0]];
    StaticPutsSnoc(instrs[..0], instrs[0]);
    assert instrs[..2] == instrs[..1] + [instrs[1]];
    StaticPutsSnoc(instrs[..1], instrs[1]);
    assert instrs[..3] == instrs[..2] + [instrs[2]];
    StaticPutsSnoc(instrs[..2], instrs[2]);
    assert instrs == instrs[..3] + [instrs[3]];
    StaticPutsSnoc(instrs[..3], instrs[3]);
  }

  /** The diamond's writes are numbered 0, 1, 2; X is written by facts 0 and 1, Y by fact 2. */
  lemma DiamondIsNumbered()
    ensures IsNumberingOf(DiamondInstrs, DiamondResolve, DiamondNumbering)
  {
    var instrs := DiamondInstrs;
    var fx := DiamondResolve(DiamondX);
    var fy := DiamondResolve(DiamondY);
    DiamondStaticPuts();
    assert FieldOfFact(instrs, DiamondResolve, 0) == fx;
    assert FieldOfFact(instrs, DiamondResolve, 1) == fx;
    assert FieldOfFact(instrs, DiamondResolve, 2) == fy;
    assert fx != fy;
    assert WrittenFields(instrs, DiamondResolve) == {fx, fy};
    assert DefsOf(instrs, DiamondResolve, fx) == {0, 1};
    assert DefsOf(instrs, DiamondResolve, fy) == {2};
  }

  /** The diamond's nodes get identity, kill/gen for facts 0 and 1 of X, kill/gen for fact 2 of Y, identity. */
  lemma DiamondHasTransfers()
    ensures NodeTransfers(DiamondCfg.blocks, DiamondNumbering, DiamondResolve) == Success(DiamondTransfers)
  {
    var blocks := DiamondCfg.blocks;
    var num := DiamondNumbering;
    assert MappedIndex(num.putInstrs, 0) == 0;
    assert MappedIndex(num.putInstrs, 1) == 1;
    assert MappedIndex(num.putInstrs, 2) == 2;
    forall n | 0 <= n < |blocks|
      ensures NodeTransferFunction(blocks[n], num, DiamondResolve) == Success(DiamondTransfers[n])
    {
    }
    var r := NodeTransfers(blocks, num, DiamondResolve);
    assert r.value == DiamondTransfers;
  }

  /** The diamond's solution satisfies the equations. */
  lemma DiamondIsFixpoint()
    ensures IsFixpoint(DiamondCfg, DiamondTransfers, DiamondSolution)
  {
    var cfg := DiamondCfg;
    var sol := DiamondSolution;
    var outs := sol.outs;
    MeetOfOne(outs[0]);
    MeetOfOne(outs[1]);
    MeetOfTwo(outs[2], outs[3]);
    assert PredOuts(cfg, outs, 0) == [];
    assert PredOuts(cfg, outs, 1) == [outs[0]];
    assert PredOuts(cfg, outs, 2) == [outs[1]];
    assert PredOuts(cfg, outs, 3) == [outs[1]];
    assert PredOuts(cfg, outs, 4) == [outs[2], outs[3]];
    forall n | 0 <= n < |cfg.blocks|
      ensures sol.ins[n] == Meet(PredOuts(cfg, outs, n))
      ensures outs[n] == Apply(DiamondTransfers[n], sol.ins[n])
    {
      // one case per node, so that each equation is checked on its own
      if n == 0 {
      } else if n == 1 {
      } else if n == 2 {
      } else if n == 3 {
      } else {
      }
    }
  }

  /**
   Solving the diamond: OUT(4) holds three facts, among them fact 2 (the
   write to Y), which no write to X kills.
   */
  lemma DiamondScenario()
    ensures Solves(DiamondCfg, DiamondResolve, DiamondNumbering, DiamondSolution)
    ensures |DiamondSolution.outs[4]| == 3 && 2 in DiamondSolution.outs[4]
  {
    DiamondIsNumbered();
    DiamondHasTransfers();
    DiamondIsFixpoint();
  }
}

=== FILE: ir.dfy ===
/**
 The part of the intermediate representation the reaching-definitions analysis
 looks at: instructions, basic blocks and the control-flow graph that holds them.
 How these are built (bytecode loading, SSA, block formation) is external.
 */
module Ir {

  /** A field reference as written in an instruction, before class-hierarchy resolution. */
  datatype FieldRef = FieldRef(declaringClass: string, name: string)

  /** A resolved, canonical field: two references resolve to the same field when they alias. */
  datatype Field = Field(declaringClass: string, name: string)

  /**
   An instruction, reduced to what the analysis inspects. `iIndex` is the
   index the IR gives the instruction; the model does not tie it to a
   position, and assumes indices distinct only where `DistinctIndices` says
   so. `Other` stands for every instruction that is not a field write
   (including instructions kept outside the array, such as phis), and for
   empty slots of the array.
   */
  datatype Instruction =
    | PutStatic(iIndex: int, declaredField: FieldRef)
    | PutInstance(iIndex: int, declaredField: FieldRef)
    | Other(iIndex: int)

  /** A basic block: its number and its instructions in program order. */
  datatype Block = Block(number: nat, instructions: seq<Instruction>)

  /**
   A control-flow graph: the procedure's whole instruction array, its blocks,
   and for each block the ordered list of its predecessors. Nodes are
   referred to by their position: node `n` is `blocks[n]` with predecessors
   `preds[n]`; `Block.number` is the block's own label and plays no part.
   */
  datatype Cfg = Cfg(instructions: seq<Instruction>, blocks: seq<Block>, preds: seq<seq<nat>>)

  /** Predecessor lists are given for every block and name existing blocks only. */
  predicate WellFormed(cfg: Cfg)
  {
    && |cfg.preds| == |cfg.blocks|
    && forall n, i :: 0 <= n < |cfg.preds| && 0 <= i < |cfg.preds[n]| ==> cfg.preds[n][i] < |cfg.blocks|
  }

  /** No two instructions of the array share an instruction index. */
  predicate DistinctIndices(instrs: seq<Instruction>)
  {
    forall a, b :: 0 <= a < |instrs| && 0 <= b < |instrs| && a != b ==> instrs[a].iIndex != instrs[b].iIndex
  }
}

=== FILE: numbering.dfy ===
/**
 The numbering pass run when the analysis is constructed: one left-to-right
 scan of the instruction array that gives every static write a dense fact
 number and records, per resolved field, the fact numbers of all writes to it
 (the kill table).
 */
module Numbering {
  import opened Ir
  import opened OrdinalMapping

  /** The static writes of `instrs`, in array order; fact k is the k-th of them. */
  function StaticPuts(instrs: seq<Instruction>): (puts: seq<Instruction>)
    ensures |puts| <= |instrs|
    ensures forall k :: 0 <= k < |puts| ==> puts[k].PutStatic?
  {
    if |instrs| == 0 then []
    else
      var last := instrs[|instrs| - 1];
      StaticPuts(instrs[..|instrs| - 1]) + (if last.PutStatic? then [last] else [])
  }

  /** The fact number the pass gives the instruction at position `j`: how many static writes precede it. */
  function FactIndex(instrs: seq<Instruction>, j: nat): nat
    requires j <= |instrs|
  {
    |StaticPuts(instrs[..j])|
  }

  /** The resolved field written by fact `k`. */
  function FieldOfFact(instrs: seq<Instruction>, resolve: FieldRef -> Field, k: nat): Field
    requires k < |StaticPuts(instrs)|
  {
    resolve(StaticPuts(instrs)[k].declaredField)
  }

  /** Every fact number whose write resolves to `f`. */
  function DefsOf(instrs: seq<Instruction>, resolve: FieldRef -> Field, f: Field): set<nat>
  {
    set k: nat | k < |StaticPuts(instrs)| && FieldOfFact(instrs, resolve, k) == f
  }

  /** The resolved fields that some static write of `instrs` writes. */
  function WrittenFields(instrs: seq<Instruction>, resolve: FieldRef -> Field): set<Field>
  {
    set k | 0 <= k < |StaticPuts(instrs)| :: FieldOfFact(instrs, resolve, k)
  }

  /**
   The two tables the pass builds: `putInstrs[k]` is the instruction index of
   fact k, and `kill[f]` holds the fact numbers of the writes to field `f`.
   */
  datatype Numbering = Numbering(putInstrs: seq<int>, kill: map<Field, set<nat>>)

  /** The number of facts, i.e. the width of the bit vectors. */
  function FactCount(num: Numbering): nat
  {
    |num.putInstrs|
  }

  /**
   `num` is the numbering of `instrs`: the static writes get the fact numbers
   0..N-1 in array order, fact k records the instruction index of the k-th
   static write, the kill table has an entry exactly for the fields some
   static write resolves to, and that entry holds exactly the writes to it.
   */
  predicate IsNumberingOf(instrs: seq<Instruction>, resolve: FieldRef -> Field, num: Numbering)
  {
    var puts := StaticPuts(instrs);
    && |num.putInstrs| == |puts|
    && (forall k :: 0 <= k < |puts| ==> num.putInstrs[k] == puts[k].iIndex)
    && num.kill.Keys == WrittenFields(instrs, resolve)
    && (forall f :: f in num.kill ==> num.kill[f] == DefsOf(instrs, resolve, f))
  }

  /** Appending one instruction appends at most that instruction to the static writes. */
  lemma StaticPutsSnoc(instrs: seq<Instruction>, x: Instruction)
    ensures StaticPuts(instrs + [x]) == StaticPuts(instrs) + (if x.PutStatic? then [x] else [])
  {
    assert (instrs + [x])[..|instrs|] == instrs;
  }

  /** Appending one instruction keeps the fields of the earlier facts and adds its own, if it is a static write. */
  lemma FieldOfFactSnoc(instrs: seq<Instruction>, x: Instruction, resolve: FieldRef -> Field)
    ensures forall k :: 0 <= k < |StaticPuts(instrs)| ==> FieldOfFact(instrs + [x], resolve, k) == FieldOfFact(instrs, resolve, k)
    ensures x.PutStatic? ==> FieldOfFact(instrs + [x], resolve, |StaticPuts(instrs)|) == resolve(x.declaredField)
  {
    StaticPutsSnoc(instrs, x);
  }

  /** Appending one instruction adds its fact number to the writes of its field, and nothing else. */
  lemma DefsOfSnoc(instrs: seq<Instruction>, x: Instruction, resolve: FieldRef -> Field, f: Field)
    ensures DefsOf(instrs + [x], resolve, f)
         == DefsOf(instrs, resolve, f) + (if x.PutStatic? && resolve(x.declaredField) == f then {|StaticPuts(instrs)|} else {})
  {
    StaticPutsSnoc(instrs, x);
    FieldOfFactSnoc(instrs, x, resolve);
    var n := |StaticPuts(instrs)|;
    var extra: set<nat> := if x.PutStatic? && resolve(x.declaredField) == f then {n} else {};
    var grown := DefsOf(instrs + [x], resolve, f);
    var kept := DefsOf(instrs, resolve, f);
    assert grown <= kept + extra;
    assert kept + extra <= grown;
  }

  /** Appending one instruction adds at most its own field to the written fields. */
  lemma WrittenFieldsSnoc(instrs: seq<Instruction>, x: Instruction, resolve: FieldRef -> Field)
    ensures WrittenFields(instrs + [x], resolve)
         == WrittenFields(instrs, resolve) + (if x.PutStatic? then {resolve(x.declaredField)} else {})
  {
    StaticPutsSnoc(instrs, x);
    var n := |StaticPuts(instrs)|;
    forall k | 0 <= k < n
      ensures FieldOfFact(instrs + [x], resolve, k) == FieldOfFact(instrs, resolve, k)
    {
    }
    if x.PutStatic? {
      assert FieldOfFact(instrs + [x], resolve, n) == resolve(x.declaredField);
    }
  }

  /** The numbering pass: the loop over the instruction array. */
  method NumberPutStatics(instrs: seq<Instruction>, resolve: FieldRef -> Field) returns (num: Numbering)
    ensures IsNumberingOf(instrs, resolve, num)
  {
    var putInstrs: seq<int> := [];
    var kill: map<Field, set<nat>> := map[];
    for i := 0 to |instrs|
      invariant IsNumberingOf(instrs[..i], resolve, Numbering(putInstrs, kill))
    {
      var instruction := instrs[i];
      assert instrs[..i + 1] == instrs[..i] + [instruction];
      StaticPutsSnoc(instrs[..i], instruction);
      WrittenFieldsSnoc(instrs[..i], instruction, resolve);
      if instruction.PutStatic? {
        var instrNum := |putInstrs|;
        putInstrs := putInstrs + [instruction.iIndex];
        var field := resolve(instruction.declaredField);
        var bv := if field in kill then kill[field] else {};
        kill := kill[field := bv + {instrNum}];
        forall f | f in kill
          ensures kill[f] == DefsOf(instrs[..i + 1], resolve, f)
        {
          DefsOfSnoc(instrs[..i], instruction, resolve, f);
        }
      } else {
        forall f | f in kill
          ensures kill[f] == DefsOf(instrs[..i + 1], resolve, f)
        {
          DefsOfSnoc(instrs[..i], instruction, resolve, f);
        }
      }
    }
    assert instrs[..|instrs|] == instrs;
    num := Numbering(putInstrs, kill);
  }

  /** The static writes of a prefix are a prefix of the static writes. */
  lemma {:induction false} StaticPutsPrefix(instrs: seq<Instruction>, j: nat)
    requires j <= |instrs|
    ensures StaticPuts(instrs[..j]) <= StaticPuts(instrs)
    decreases |instrs|
  {
    if j < |instrs| {
      var init := instrs[..|instrs| - 1];
      assert instrs[..j] == init[..j];
      StaticPutsPrefix(init, j);
    } else {
      assert instrs[..j] == instrs;
    }
  }

  /** Fact numbers never decrease along the array, and step by one past each static write. */
  lemma {:induction false} FactIndexStep(instrs: seq<Instruction>, j: nat)
    requires j < |instrs|
    ensures FactIndex(instrs, j + 1) == FactIndex(instrs, j) + (if instrs[j].PutStatic? then 1 else 0)
  {
    assert instrs[..j + 1] == instrs[..j] + [instrs[j]];
    StaticPutsSnoc(instrs[..j], instrs[j]);
  }

  /** Fact numbers never decrease along the array. */
  lemma {:induction false} FactIndexMonotone(instrs: seq<Instruction>, a: nat, b: nat)
    requires a <= b <= |instrs|
    ensures FactIndex(instrs, a) <= FactIndex(instrs, b)
    decreases b - a
  {
    if a < b {
      FactIndexStep(instrs, a);
      FactIndexMonotone(instrs, a + 1, b);
    }
  }

  /** Fact number `k` is the number of some static write of the array. */
  ghost predicate HasWriter(instrs: seq<Instruction>, k: nat)
  {
    exists j :: 0 <= j < |instrs| && instrs[j].PutStatic? && FactIndex(instrs, j) == k
  }

  /**
   The static write at position j is fact number FactIndex(instrs, j), and the
   static writes are numbered in strictly increasing array order.
   */
  lemma FactIndexOfPut(instrs: seq<Instruction>, j: nat)
    requires j < |instrs| && instrs[j].PutStatic?
    ensures FactIndex(instrs, j) < |StaticPuts(instrs)|
    ensures StaticPuts(instrs)[FactIndex(instrs, j)] == instrs[j]
    ensures forall b :: j < b < |instrs| && instrs[b].PutStatic? ==> FactIndex(instrs, j) < FactIndex(instrs, b)
  {
    assert instrs[..j + 1] == instrs[..j] + [instrs[j]];
    StaticPutsSnoc(instrs[..j], instrs[j]);
    StaticPutsPrefix(instrs, j + 1);
    forall b | j < b < |instrs| && instrs[b].PutStatic?
      ensures FactIndex(instrs, j) < FactIndex(instrs, b)
    {
      FactIndexMonotone(instrs, j + 1, b);
    }
  }

  /** Every fact number below the count belongs to some static write of the array. */
  lemma {:induction false} EveryFactHasPosition(instrs: seq<Instruction>, k: nat)
    requires k < |StaticPuts(instrs)|
    ensures HasWriter(instrs, k)
    decreases |instrs|
  {
    var init := instrs[..|instrs| - 1];
    var last := |instrs| - 1;
    assert instrs == init + [instrs[last]];
    if k < |StaticPuts(init)| {
      EveryFactHasPosition(init, k);
      assert HasWriter(init, k);
      var j :| 0 <= j < |init| && init[j].PutStatic? && FactIndex(init, j) == k;
      assert instrs[..j] == init[..j];
      assert instrs[j] == init[j];
    } else {
      assert FactIndex(instrs, last) == |StaticPuts(init)|;
      assert instrs[last].PutStatic?;
    }
  }

  /**
   The numbering is dense and in array order: the static writes get exactly
   the fact numbers 0..N-1, N is their count, and each keeps its own
   instruction index in the ordinal table.
   */
  lemma NumberingIsDense(instrs: seq<Instruction>, resolve: FieldRef -> Field, num: Numbering)
    requires IsNumberingOf(instrs, resolve, num)
    ensures FactCount(num) == |StaticPuts(instrs)|
    ensures forall j :: 0 <= j < |instrs| && instrs[j].PutStatic? ==>
              FactIndex(instrs, j) < FactCount(num) && num.putInstrs[FactIndex(instrs, j)] == instrs[j].iIndex
    ensures forall k :: 0 <= k < FactCount(num) ==> HasWriter(instrs, k)
  {
    forall j | 0 <= j < |instrs| && instrs[j].PutStatic?
      ensures FactIndex(instrs, j) < FactCount(num) && num.putInstrs[FactIndex(instrs, j)] == instrs[j].iIndex
    {
      FactIndexOfPut(instrs, j);
    }
    forall k | 0 <= k < FactCount(num)
      ensures HasWriter(instrs, k)
    {
      EveryFactHasPosition(instrs, k);
    }
  }

  /**
   When instruction indices are distinct, the ordinal table and its reverse
   lookup form a bijection between fact numbers and the instruction indices
   of the static writes: a static write looks up to its own fact number, and
   any other instruction looks up to -1 (it has no fact number).
   */
  lemma OrdinalsAreBijective(instrs: seq<Instruction>, resolve: FieldRef -> Field, num: Numbering)
    requires IsNumberingOf(instrs, resolve, num)
    requires DistinctIndices(instrs)
    ensures Distinct(num.putInstrs)
    ensures forall k :: 0 <= k < FactCount(num) ==> MappedIndex(num.putInstrs, num.putInstrs[k]) == k
    ensures forall j :: 0 <= j < |instrs| && instrs[j].PutStatic? ==>
              MappedIndex(num.putInstrs, instrs[j].iIndex) == FactIndex(instrs, j)
    ensures forall j :: 0 <= j < |instrs| && !instrs[j].PutStatic? ==>
              MappedIndex(num.putInstrs, instrs[j].iIndex) == -1
  {
    NumberingIsDense(instrs, resolve, num);
    var puts := StaticPuts(instrs);
    // every fact k sits at some array position, and distinct facts at distinct positions
    forall a, b | 0 <= a < |puts| && 0 <= b < |puts| && a != b
      ensures num.putInstrs[a] != num.putInstrs[b]
    {
      assert HasWriter(instrs, a) && HasWriter(instrs, b);
      var ja :| 0 <= ja < |instrs| && instrs[ja].PutStatic? && FactIndex(instrs, ja) == a;
      var jb :| 0 <= jb < |instrs| && instrs[jb].PutStatic? && FactIndex(instrs, jb) == b;
      assert ja != jb;
    }
    MappedIndexInverse(num.putInstrs);
    forall j | 0 <= j < |instrs| && !instrs[j].PutStatic?
      ensures MappedIndex(num.putInstrs, instrs[j].iIndex) == -1
    {
      forall k | 0 <= k < |puts|
        ensures num.putInstrs[k] != instrs[j].iIndex
      {
        assert HasWriter(instrs, k);
        var jk :| 0 <= jk < |instrs| && instrs[jk].PutStatic? && FactIndex(instrs, jk) == k;
        FactIndexOfPut(instrs, jk);
        assert jk != j;
      }
    }
  }

  /**
   The kill table partitions the facts by field: every fact is in the entry
   of its own field, an entry only holds facts below the count, and the
   entries of two different fields share no fact.
   */
  lemma KillTablePartitionsFacts(instrs: seq<Instruction>, resolve: FieldRef -> Field, num: Numbering)
    requires IsNumberingOf(instrs, resolve, num)
    ensures forall k :: 0 <= k < FactCount(num) ==>
              FieldOfFact(instrs, resolve, k) in num.kill && k in num.kill[FieldOfFact(instrs, resolve, k)]
    ensures forall f, k :: f in num.kill && k in num.kill[f] ==> k < FactCount(num) && FieldOfFact(instrs, resolve, k) == f
    ensures forall f, g :: f in num.kill && g in num.kill && f != g ==> num.kill[f] !! num.kill[g]
  {
  }

  /**
   A static write taken from the array has a kill-table entry for its field,
   and its own fact number is in that entry.
   */
  lemma KillEntryOfPut(instrs: seq<Instruction>, resolve: FieldRef -> Field, num: Numbering, j: nat)
    requires IsNumberingOf(instrs, resolve, num)
    requires j < |instrs| && instrs[j].PutStatic?
    ensures resolve(instrs[j].declaredField) in num.kill
    ensures FactIndex(instrs, j) in num.kill[resolve(instrs[j].declaredField)]
  {
    FactIndexOfPut(instrs, j);
    KillTablePartitionsFacts(instrs, resolve, num);
    assert FieldOfFact(instrs, resolve, FactIndex(instrs, j)) == resolve(instrs[j].declaredField);
  }

  /**
   The description of the numbering pins it down: two numberings of the same
   array under the same resolution are equal.
   */
  lemma NumberingIsUnique(instrs: seq<Instruction>, resolve: FieldRef -> Field, a: Numbering, b: Numbering)
    requires IsNumberingOf(instrs, resolve, a) && IsNumberingOf(instrs, resolve, b)
    ensures a == b
  {
  }

  /**
   The static writes are exactly the static writes of the array: each one is
   an instruction of the array, and each static write of the array is one of
   them.
   */
  lemma StaticPutsAreTheArrayWrites(instrs: seq<Instruction>)
    ensures forall k :: 0 <= k < |StaticPuts(instrs)| ==> StaticPuts(instrs)[k] in instrs
    ensures forall j :: 0 <= j < |instrs| && instrs[j].PutStatic? ==> instrs[j] in StaticPuts(instrs)
  {
    forall k | 0 <= k < |StaticPuts(instrs)|
      ensures StaticPuts(instrs)[k] in instrs
    {
      EveryFactHasPosition(instrs, k);
      var j :| 0 <= j < |instrs| && instrs[j].PutStatic? && FactIndex(instrs, j) == k;
      FactIndexOfPut(instrs, j);
    }
    forall j | 0 <= j < |instrs| && instrs[j].PutStatic?
      ensures instrs[j] in StaticPuts(instrs)
    {
      FactIndexOfPut(instrs, j);
    }
  }
}

=== FILE: ordinal_mapping.dfy ===
/**
 The ordinal mapping between dense fact numbers and the instruction indices
 of the static writes they stand for. The mapping is an array of instruction
 indices; the reverse lookup answers -1 for an index that is not mapped.
 */
module OrdinalMapping {

  /** No value occurs twice in `xs`. */
  predicate Distinct(xs: seq<int>)
  {
    forall a, b :: 0 <= a < |xs| && 0 <= b < |xs| && a != b ==> xs[a] != xs[b]
  }

  /**
   The reverse lookup: the position of `x` in `xs`, or -1 when `x` is absent.
   The lookup table is filled left to right, so a repeated value answers with
   its last position.
   */
  function MappedIndex(xs: seq<int>, x: int): (r: int)
    ensures -1 <= r < |xs|
    ensures r == -1 <==> x !in xs
    ensures 0 <= r ==> xs[r] == x && forall j :: r < j < |xs| ==> xs[j] != x
  {
    if |xs| == 0 then -1
    else if xs[|xs| - 1] == x then |xs| - 1
    else MappedIndex(xs[..|xs| - 1], x)
  }

  /**
   Over an array without repeats, the lookup and the array are inverse to
   each other: position k looks up to k, and any value found is the value at
   the position found.
   */
  lemma MappedIndexInverse(xs: seq<int>)
    requires Distinct(xs)
    ensures forall k :: 0 <= k < |xs| ==> MappedIndex(xs, xs[k]) == k
    ensures forall x :: MappedIndex(xs, x) >= 0 ==> xs[MappedIndex(xs, x)] == x
  {
  }
}

=== FILE: transfer.dfy ===
/**
 The per-node transfer functions of the reaching-definitions analysis. A node
 either kills every write to one field and generates its own write, or
 passes its input through unchanged. Bit vectors are sets of fact numbers.
 */
module Transfer {
  import opened Ir
  import opened Wrappers
  import opened OrdinalMapping
  import opened Numbering

  /** A transfer function over bit vectors: the identity, or kill/gen. */
  datatype TransferFunction = Identity | KillGen(kill: set<nat>, gen: set<nat>)

  /**
   What applying a transfer function to IN yields: OUT = (IN \ kill) ∪ gen for
   kill/gen, OUT = IN for the identity. For kill/gen the ensures say it
   element by element: generated facts always reach OUT, facts of IN that are
   not killed pass through, a killed fact survives only if regenerated, and
   nothing outside IN ∪ gen appears.
   */
  function Apply(t: TransferFunction, input: set<nat>): (out: set<nat>)
    ensures t.Identity? ==> out == input
    ensures t.KillGen? ==> && t.gen <= out
                           && input - t.kill <= out
                           && out * t.kill <= t.gen
                           && out <= input + t.gen
  {
    match t
    case Identity => input
    case KillGen(kill, gen) => (input - kill) + gen
  }

  /**
   Why a transfer function could not be built: the instruction index of a
   node's write has no fact number, the write's field has no kill-table
   entry, or an edge transfer function was asked for.
   */
  datatype TransferError =
    | UnmappedInstruction(iIndex: int)
    | NoKillEntry(field: Field)
    | EdgeTransferUnsupported

  /** The node starts with a static write; only then is it kill/gen. */
  predicate StartsWithStaticPut(node: Block)
  {
    |node.instructions| > 0 && node.instructions[0].PutStatic?
  }

  /**
   The transfer function of a node. Only the node's first instruction is
   examined: a static write there makes the node kill every write to the same
   resolved field and generate its own fact; any other first instruction, or
   no instruction at all, makes it the identity. A static write later in the
   node is never looked at.
   */
  function NodeTransferFunction(node: Block, num: Numbering, resolve: FieldRef -> Field): (r: Result<TransferFunction, TransferError>)
    ensures !StartsWithStaticPut(node) ==> r == Success(Identity)
    ensures r.Success? && r.value.KillGen? ==> StartsWithStaticPut(node) && |r.value.gen| == 1
  {
    if |node.instructions| == 0 then Success(Identity)
    else
      match node.instructions[0]
      case PutStatic(iIndex, declaredField) =>
        var field := resolve(declaredField);
        var i := MappedIndex(num.putInstrs, iIndex);
        if i < 0 then Failure(UnmappedInstruction(iIndex))
        else if field !in num.kill then Failure(NoKillEntry(field))
        else Success(KillGen(num.kill[field], {i}))
      case _ => Success(Identity)
  }

  /**
   A node whose first instruction is a static write taken from the
   procedure's array (at position j) gets kill/gen: kill is every fact
   writing the same resolved field F, gen is the write's own fact number,
   and gen is contained in kill.
   */
  lemma KillGenOfNumberedPut(instrs: seq<Instruction>, resolve: FieldRef -> Field, num: Numbering, node: Block, j: nat)
    requires IsNumberingOf(instrs, resolve, num) && DistinctIndices(instrs)
    requires j < |instrs| && instrs[j].PutStatic?
    requires |node.instructions| > 0 && node.instructions[0] == instrs[j]
    ensures var f := resolve(instrs[j].declaredField);
            NodeTransferFunction(node, num, resolve) == Success(KillGen(DefsOf(instrs, resolve, f), {FactIndex(instrs, j)}))
    ensures FactIndex(instrs, j) in DefsOf(instrs, resolve, resolve(instrs[j].declaredField))
  {
    OrdinalsAreBijective(instrs, resolve, num);
    KillEntryOfPut(instrs, resolve, num, j);
  }

  /**
   The effect of such a node on any IN, with distinct instruction indices
   (a repeated index would look up the last write's fact): its own fact is
   in OUT, no other write to F survives in OUT, and every fact that is not a
   write to F is in OUT exactly when it is in IN.
   */
  lemma KillGenEffect(instrs: seq<Instruction>, resolve: FieldRef -> Field, num: Numbering, node: Block, j: nat, input: set<nat>)
    requires IsNumberingOf(instrs, resolve, num) && DistinctIndices(instrs)
    requires j < |instrs| && instrs[j].PutStatic?
    requires |node.instructions| > 0 && node.instructions[0] == instrs[j]
    ensures NodeTransferFunction(node, num, resolve).Success?
    ensures var out := Apply(NodeTransferFunction(node, num, resolve).value, input);
            var f := resolve(instrs[j].declaredField);
            && FactIndex(instrs, j) in out
            && (forall k :: k in out && k < FactCount(num) && FieldOfFact(instrs, resolve, k) == f ==> k == FactIndex(instrs, j))
            && (forall k :: k !in DefsOf(instrs, resolve, f) ==> (k in out <==> k in input))
  {
    KillGenOfNumberedPut(instrs, resolve, num, node, j);
    NumberingIsDense(instrs, resolve, num);
  }

  /** The transfer function of a node depends on its first instruction alone. */
  lemma OnlyFirstInstructionExamined(node: Block, num: Numbering, resolve: FieldRef -> Field)
    requires |node.instructions| > 0
    ensures NodeTransferFunction(node, num, resolve) == NodeTransferFunction(Block(node.number, node.instructions[..1]), num, resolve)
  {
  }

  /** Every transfer function is monotone: a larger IN never gives a smaller OUT. */
  lemma TransferMonotone(t: TransferFunction, a: set<nat>, b: set<nat>)
    requires a <= b
    ensures Apply(t, a) <= Apply(t, b)
  {
  }
}

=== FILE: wrappers.dfy ===
/** Success/failure values for the operations of the analysis that can fail. */
module Wrappers {

  /** Either a computed value or the reason it could not be computed. */
  datatype Result<+T, +E> = Success(value: T) | Failure(error: E)
}
